=== FILE: README.md ===
# Security gate: threshold evaluation, modelled in Dafny

This project models the decision core of the security gate in `gate.py`. The
gate reads a vulnerability scan summary and decides whether a CI workflow may
proceed. The model covers:

- **Loader normalisation.** After the scan file has been read and decoded,
  any value that is not a JSON object becomes the empty report. A missing file
  or malformed JSON also gives the empty report.
- **`_to_int`.** Severity values are coerced to integers. Integers are kept.
  Booleans give 0 or 1. Strings are parsed the way Python's `int(str)` parses
  them in base 10. Everything else gives 0.
- **`security_gate`.** The gate extracts `critical`, `high` and `medium`, each
  with default 0. It then applies a strict first-match rule:
  - `critical > 0` gives BLOCK;
  - otherwise `high > 0` gives WARN;
  - otherwise `medium >= 5` gives WARN;
  - otherwise the result is ALLOW.
- **`write_decision_file` and `main`.** The model covers the payload of the
  decision record, the printed line and the exit status. When writing the
  record and printing the line succeed, BLOCK exits with 1, and WARN and ALLOW
  exit with 0.

Modules:

- `Wrappers` (`wrappers.dfy`): `Option`.
- `Json` (`json.dfy`): `JValue`. This is the value Python's `json` module
  produces: null, booleans, integers, strings, lists and dicts.
- `IntLiteral` (`int_literal.dfy`): Python's `int(s)` on a string, in base 10.
  It accepts surrounding whitespace, one optional sign, and digits with single
  underscores between digits. Leading zeros are allowed. `ParseInt` returns
  `None` wherever Python raises `ValueError`, except for the digit-count limit
  listed under "Left out". `Show` is `str(n)`.
  The whitespace `int` strips is narrower than `str.isspace`:
  - among ASCII characters it is only `\t`, `\n`, `\v`, `\f`, `\r` and the
    space, so the separators U+001C to U+001F make the conversion fail;
  - non-ASCII whitespace, such as U+00A0 or U+3000, is stripped.
- `Gate` (`gate.dfy`): the loader outcome, `ToInt`, count extraction, the
  decision rule, the decision record, the exit status and `RunGate`, which is
  `main` with its effects returned as values.
- `GateScenarios` (`gate_scenarios.dfy`): the scenarios of `test_gate.py` as
  lemmas, plus edge cases of `int(s)`.

Some inputs of the source are parameters in the model:

- The result of reading and decoding `scan_result.json` is the parameter
  `ReadOutcome`: `Parsed(value)`, `FileNotFound` or `MalformedJson`.
- The wall-clock text `datetime.utcnow().isoformat()` is the `timestamp`
  parameter.
- `print` and `sys.exit` become the `message` and `exitCode` fields of
  `RunResult`.

Notes on what the code does:

- Counts are not guaranteed non-negative. `_to_int("-3")` is -3, and a
  negative `critical` just fails the `> 0` test (see
  `GateScenarios.NegativeCriticalDoesNotBlock`). So no non-negativity is
  claimed.
- The WARN rule for `high` applies whenever `critical <= 0`, including a
  negative `critical`.
- Booleans are valid counts, because `int(True) == 1`.
- The loader does not turn every failure into `{}`. Only a missing file and
  a JSON decoding error do. Other errors, such as `PermissionError` or
  `UnicodeDecodeError`, propagate.

## Model

| member | source | states |
|---|---|---|
| `IntLiteral.ParseInt` | gate.py:14 | `int(s)` succeeds exactly when `s` is whitespace, then an optional sign and a digit body, then whitespace. The result is the value of that literal, wherever the literal is found. |
| `IntLiteral.TrimFindsExactlyLiterals` | gate.py:14 | Stripping the whitespace `int` ignores leaves a signed literal exactly when the string holds one padded with whitespace, and then it leaves that literal. |
| `IntLiteral.ParseShowRoundTrip` | gate.py:14 | `int(str(n)) == n` for every integer `n`, negative ones included. |
| `IntLiteral.ForeignCharRejected` | gate.py:13-16 | A string with any character that is not whitespace, a digit, `_` or a sign does not convert. This covers the `.` in `"2.5"`, so fractions are neither rounded nor truncated. |
| `IntLiteral.NoDigitRejected` | gate.py:13-16 | A string without a single decimal digit does not convert. |
| `IntLiteral.ParseUnpaddedLiteral` | gate.py:14 | A literal with no whitespace around it converts to its signed value. |
| `IntLiteral.ParseOneDigit` | gate.py:14 | A one-digit string converts to that digit's value. |
| `IntLiteral.ParseNegatedOneDigit` | gate.py:14 | `"-"` followed by one digit converts to minus that digit's value. |
| `Gate.ToInt` | gate.py:12-16 | An integer is returned unchanged. `True` gives 1 and `False` gives 0. A string holding a whitespace-padded literal gives that literal's value, and any other string gives 0. A non-zero count from a string is exactly what `int` parses from it. `None`, lists and dicts give 0. |
| `Gate.ToIntIdempotent` | gate.py:12-16 | Coercing an already-coerced value changes nothing. |
| `Gate.ToIntThroughText` | gate.py:12-16 | A coerced count written as decimal text coerces back to the same count. |
| `Gate.ToIntRejectsForeignText` | gate.py:12-16 | Strings such as `"2.5"` or `"abc"`, which contain a character outside whitespace, digits, `_` and signs, coerce to 0. |
| `Gate.ToIntRejectsDigitlessText` | gate.py:12-16 | A string with no digit coerces to 0. |
| `Gate.AsReport` | gate.py:8 | A JSON object is kept as the report. Any other parsed value becomes the empty report. A non-empty result is always the object that was parsed. |
| `Gate.LoadScanResult` | gate.py:4-10 | A missing file or malformed JSON gives `{}`. A parsed object is returned unchanged, and a parsed non-object gives `{}`. A non-empty report always comes from a parsed object. |
| `Gate.EvaluatorNormalisationAfterLoader` | gate.py:22-29 | The loader's normalisation (gate.py:8 and 9-10) followed by the evaluator's own non-dict check gives the same decision and counts as the evaluator's check alone. A parsed value is judged as if it were handed to `security_gate` directly, and a missing file or malformed JSON is judged like `None`. |
| `Gate.CountOf` | gate.py:27-29 | A present key counts as its coerced value. A missing key counts as 0. |
| `Gate.ExtractCounts` | gate.py:24-29 | A report that is not an object gives counts (0, 0, 0). Each key that is present gives its coerced value, and each missing key gives 0. |
| `Gate.Decide` | gate.py:31-40 | BLOCK exactly when `critical > 0`. WARN exactly when `critical <= 0` and either `high > 0` or `medium >= 5`. ALLOW exactly when none of these holds. |
| `Gate.SecurityGate` | gate.py:18-40 | The returned counts are the extracted coerced counts on every branch, and the decision is taken on those same counts. A non-object report gives ALLOW with (0, 0, 0). |
| `Gate.FirstMatchIsMostSevereTier` | gate.py:31-40 | The first-match decision equals the most severe of the three tiers' separate verdicts. Checking medium only after critical and high loses nothing. |
| `Gate.DecideMonotone` | gate.py:31-40 | Raising any count never makes the decision less severe. |
| `Gate.NoReportAllows` | gate.py:4-40 | A missing file, malformed JSON or a non-object value gives ALLOW with counts (0, 0, 0). |
| `Gate.Label` | gate.py:32-40 | The label is `"BLOCK"` exactly for BLOCK, `"WARN"` exactly for WARN and `"ALLOW"` exactly for ALLOW. |
| `Gate.ParseLabel` | gate.py:61-65 | A string read back as a decision is exactly that decision's label. |
| `Gate.LabelRoundTrip` | gate.py:61-65 | Every label reads back as its own decision, so labels are distinct. |
| `Gate.DecisionRecord` | gate.py:44-52 | The record has exactly the keys `decision`, `counts` and `generated_at_utc`. `counts` is an object with exactly the three severity keys. The timestamp ends in `Z`. |
| `Gate.DecisionRecordRereads` | gate.py:44-52 | Reading the written record back recovers the same decision from its label. Evaluating its `counts` object again gives the same decision and counts. |
| `Gate.Message` | gate.py:61-69 | The printed line opens with the decision's status symbol, followed by `" Security Gate: "` and the decision's label. |
| `Gate.ExitCode` | gate.py:61-70 | The exit status is 1 exactly for BLOCK, and 0 for both WARN and ALLOW. |
| `Gate.OutcomeDistinguishesDecisions` | gate.py:61-70 | Two different decisions always print different lines. They share an exit status exactly when neither is BLOCK. |
| `Gate.RunGate` | gate.py:56-70 | The run exits with 1 exactly when the loaded report's coerced `critical` is positive, and with 0 otherwise. The record's label reads back as the decision the gate took on the loaded report. The exit status is that decision's status, and the printed line announces that decision. Evaluating the record's `counts` again gives what the gate decided on the loaded report. The record carries the given timestamp followed by `Z`. |
| `GateScenarios.ScanReportGate` | gate.py:27-40 | A report with all three keys is judged on the coerced values of those keys. |
| `GateScenarios.BlockWhenCriticalFound` | test_gate.py:9-19 | `{critical: 1, high: 0, medium: 2}` gives BLOCK with counts (1, 0, 2) and exit status 1. |
| `GateScenarios.WarnWhenHighFound` | test_gate.py:21-31 | `{critical: 0, high: 1, medium: 2}` gives WARN with counts (0, 1, 2) and exit status 0. |
| `GateScenarios.MediumBelowThreshold` | test_gate.py:33-43 | Three medium findings give ALLOW with counts (0, 0, 3), and so do four. |
| `GateScenarios.MediumAtThreshold` | test_gate.py:69-79 | Five medium findings give WARN with counts (0, 0, 5). |
| `GateScenarios.EmptyOrMissingReportAllows` | test_gate.py:45-67 | `{}`, `None` and a missing file all give ALLOW with (0, 0, 0). A missing file also exits with 0. |
| `GateScenarios.WarnWhenHighIsStringNumber` | test_gate.py:81-88 | `high: "1"` coerces to 1 and gives WARN. |
| `GateScenarios.ToIntOfNumberTextAndNone` | test_gate.py:90-97 | `_to_int("1")` is 1 and `_to_int(None)` is 0. |
| `GateScenarios.ToIntOfFractionText` | test_gate.py:93-94 | `_to_int("2.5")` is 0. |
| `GateScenarios.ToIntOfWordText` | test_gate.py:99-100 | `_to_int("abc")` is 0. |
| `GateScenarios.NegativeCriticalDoesNotBlock` | gate.py:27-40 | `critical: "-3"` is kept as -3 and gives ALLOW. |
| `GateScenarios.IntTextPadded` | gate.py:14 | `int(" 7\n")` is 7. |
| `GateScenarios.IntTextPlusSign` | gate.py:14 | `int("+5")` is 5. |
| `GateScenarios.IntTextUnderscore` | gate.py:14 | `int("1_0")` is 10. |
| `GateScenarios.IntTextDoubleUnderscore` | gate.py:14 | `int("1__0")` raises. |
| `GateScenarios.IntTextLeadingUnderscore` | gate.py:14 | `int("_1")` raises. |
| `GateScenarios.IntTextSpaceAfterSign` | gate.py:14 | `int("- 5")` raises. |
| `GateScenarios.IntTextFileSeparator` | gate.py:13-16 | `int("\x1c5")` raises, because U+001C is not whitespace to `int`. So `_to_int` gives 0. |

## Left out

- Reading `scan_result.json` and decoding its JSON (gate.py:5-7, 9) are I/O. Their outcome is the `ReadOutcome` parameter.
- The loader does not catch errors other than `FileNotFoundError` and `JSONDecodeError`, such as `PermissionError` or `UnicodeDecodeError`. These abort the run in the source and have no case in `ReadOutcome`.
- JSON numbers with a fraction or exponent, `NaN` and `Infinity` all decode to Python floats, which `JValue` cannot hold. So `int(2.5) == 2` is not modelled. Only integral JSON numbers are.
- JSON decoding details, such as duplicate keys in an object, belong to the decoder and are left out.
- IntLiteral.ParseInt: Python also accepts decimal digits from other Unicode scripts (such as Arabic-Indic digits), but the model accepts only ASCII `0`-`9`. Such strings give 0 here and their value in Python.
- IntLiteral.ParseInt: the digit-count limit for string conversion (4300 digits by default since Python 3.11, and configurable) is not modelled. Longer strings give their value here, whereas Python raises and `_to_int` returns 0.
- In `write_decision_file` (gate.py:42-54), opening and overwriting the file, the JSON text layout (`indent=2`) and reading the clock are left out. The record is modelled as a `JValue`, and the clock text is a parameter.
- The console output and `sys.exit` in `main` are returned as values in `RunResult`. They are not performed.
- Gate.RunGate: the exit status is stated for a run in which writing the record and printing the line succeed. The source does not catch failures there (gate.py:53-54, 62, 66, 69). Examples are a `PermissionError` or a full disk when opening the record file, or a `UnicodeEncodeError` when printing the symbols on a non-UTF-8 console. In those cases Python exits with status 1 even for WARN or ALLOW. File writing and console I/O are not modelled, so these failures have no case here.
- `scanner.py` writes a fixed result file and contains no logic. It is not part of this model.

=== FILE: gate.dfy ===
/** The security gate of gate.py: the loader's normalisation of a parsed scan
    result, the integer coercion of severity counts, the first-match decision
    rule, the decision record that is written out, and the exit status.

    File reading, JSON decoding, the wall clock, printing and `sys.exit` are
    not modelled: their results arrive as parameters (`ReadOutcome`, the
    timestamp text) or are returned as values (`RunResult`). */
module Gate {
  import opened Wrappers
  import opened Json
  import IntLiteral

  /** A scan report as the evaluator sees it: a Python dict with string keys. */
  type Report = map<string, JValue>

  datatype Decision = Block | Warn | Allow

  /** The three coerced severity counts. Nothing makes them non-negative:
      a count given as "-3" stays -3. */
  datatype Counts = Counts(critical: int, high: int, medium: int)

  /** What `security_gate` returns: the decision with the counts it was taken on. */
  datatype GateResult = GateResult(decision: Decision, counts: Counts)

  /** How reading scan_result.json ended: a parsed JSON value, or one of the two
      errors `load_scan_result` catches. */
  datatype ReadOutcome = Parsed(value: JValue) | FileNotFound | MalformedJson

  /** The three observable effects of `main`. */
  datatype RunResult = RunResult(exitCode: int, message: string, record: JValue)

  /** At this many medium findings, with no critical or high ones, the gate warns. */
  const MediumWarnThreshold: int := 5

  const CriticalKey: string := "critical"
  const HighKey: string := "high"
  const MediumKey: string := "medium"

  // ---------------------------------------------------------------------------
  // Loader and coercion

  /** `isinstance(v, dict)`: a JSON object is kept, anything else becomes {}. */
  function AsReport(v: JValue): (m: Report)
    ensures v.JObj? ==> m == v.fields
    ensures m != map[] ==> v == JObj(m)
  {
    if v.JObj? then v.fields else map[]
  }

  /** `load_scan_result` after the file has been read and decoded (or not). */
  function LoadScanResult(read: ReadOutcome): (m: Report)
    ensures read.Parsed? && read.value.JObj? ==> m == read.value.fields
    ensures m != map[] ==> read == Parsed(JObj(m))
    ensures !read.Parsed? ==> m == map[]
  {
    match read
    case Parsed(v) => AsReport(v)
    case FileNotFound => map[]
    case MalformedJson => map[]
  }

  /** `_to_int`: `int(x)`, with ValueError and TypeError turned into 0.
      An integer is kept, `True` is 1 and `False` is 0, a string holding a
      literal gives that literal's value and any other string gives 0;
      `None`, lists and dicts raise TypeError and give 0. */
  function ToInt(x: JValue): (r: int)
    ensures x.JInt? ==> r == x.n
    ensures x.JBool? ==> (r == 1 <==> x.b) && (r == 0 <==> !x.b)
    ensures x.JStr? ==> forall i, j :: IntLiteral.IsLiteralAt(x.s, i, j) ==> r == IntLiteral.SignedValue(x.s[i..j])
    ensures x.JStr? && (forall i, j :: !IntLiteral.IsLiteralAt(x.s, i, j)) ==> r == 0
    ensures x.JStr? && r != 0 ==> IntLiteral.ParseInt(x.s) == Some(r)
    ensures x.JNull? || x.JList? || x.JObj? ==> r == 0
  {
    match x
    case JInt(n) => n
    case JBool(b) => if b then 1 else 0
    case JStr(s) => IntLiteral.ParseInt(s).GetOr(0)
    case JNull => 0
    case JList(_) => 0
    case JObj(_) => 0
  }

  /** `_to_int(report.get(key, 0))`. */
  function CountOf(report: Report, key: string): (n: int)
    ensures key in report ==> n == ToInt(report[key])
    ensures key !in report ==> n == 0
  {
    if key in report then ToInt(report[key]) else ToInt(JInt(0))
  }

  /** The three counts of a report, after the non-dict-to-{} normalisation. */
  function ExtractCounts(report: JValue): (c: Counts)
    ensures !report.JObj? ==> c == Counts(0, 0, 0)
    ensures report.JObj? && CriticalKey in report.fields ==> c.critical == ToInt(report.fields[CriticalKey])
    ensures report.JObj? && HighKey in report.fields ==> c.high == ToInt(report.fields[HighKey])
    ensures report.JObj? && MediumKey in report.fields ==> c.medium == ToInt(report.fields[MediumKey])
    ensures report.JObj? && CriticalKey !in report.fields ==> c.critical == 0
    ensures report.JObj? && HighKey !in report.fields ==> c.high == 0
    ensures report.JObj? && MediumKey !in report.fields ==> c.medium == 0
  {
    var m := AsReport(report);
    Counts(CountOf(m, CriticalKey), CountOf(m, HighKey), CountOf(m, MediumKey))
  }

  // ---------------------------------------------------------------------------
  // The decision rule

  /** The first-match rule: critical, then high, then the medium threshold. */
  function Decide(c: Counts): (d: Decision)
    ensures d == Block <==> c.critical > 0
    ensures d == Warn <==> c.critical <= 0 && (c.high > 0 || c.medium >= MediumWarnThreshold)
    ensures d == Allow <==> c.critical <= 0 && c.high <= 0 && c.medium < MediumWarnThreshold
  {
    if c.critical > 0 then Block
    else if c.high > 0 then Warn
    else if c.medium >= MediumWarnThreshold then Warn
    else Allow
  }

  /** `security_gate` with `load_scan_result()` replaced by the value it returned. */
  function SecurityGate(report: JValue): (r: GateResult)
    ensures r.counts == ExtractCounts(report)
    ensures r.decision == Decide(r.counts)
    ensures !report.JObj? ==> r == GateResult(Allow, Counts(0, 0, 0))
  {
    var c := ExtractCounts(report);
    GateResult(Decide(c), c)
  }

  // ---------------------------------------------------------------------------
  // The decision as an ordering of tiers

  /** Allow < Warn < Block. */
  function Severity(d: Decision): (n: nat) {
    match d
    case Allow => 0
    case Warn => 1
    case Block => 2
  }

  function MaxDecision(a: Decision, b: Decision): (m: Decision)
    ensures Severity(m) >= Severity(a) && Severity(m) >= Severity(b)
    ensures m == a || m == b
  {
    if Severity(a) >= Severity(b) then a else b
  }

  /** What each severity tier asks for when looked at on its own. */
  function TierVerdicts(c: Counts): (v: seq<Decision>) {
    [ if c.critical > 0 then Block else Allow,
      if c.high > 0 then Warn else Allow,
      if c.medium >= MediumWarnThreshold then Warn else Allow ]
  }

  /** The first-match order never loses a verdict: the decision is the most
      severe of the three tiers' own verdicts, so it does not matter that
      the medium rule is only reached when critical and high are clear. */
  lemma FirstMatchIsMostSevereTier(c: Counts)
    ensures var v := TierVerdicts(c); Decide(c) == MaxDecision(v[0], MaxDecision(v[1], v[2]))
  {
  }

  /** More findings never relax the gate. */
  lemma DecideMonotone(c: Counts, c': Counts)
    requires c.critical <= c'.critical && c.high <= c'.high && c.medium <= c'.medium
    ensures Severity(Decide(c)) <= Severity(Decide(c'))
  {
  }

  // ---------------------------------------------------------------------------
  // Coercion properties

  /** `_to_int` of an integer is that integer, so coercing twice is coercing once. */
  lemma ToIntIdempotent(x: JValue)
    ensures ToInt(JInt(ToInt(x))) == ToInt(x)
  {
  }

  /** A count that has been coerced, written as decimal text and coerced again
      is unchanged: `_to_int(str(_to_int(x))) == _to_int(x)`. */
  lemma ToIntThroughText(x: JValue)
    ensures ToInt(JStr(IntLiteral.Show(ToInt(x)))) == ToInt(x)
  {
    IntLiteral.ParseShowRoundTrip(ToInt(x));
  }

  /** A string holding a fraction, an exponent or any other character outside
      whitespace, digits, underscores and signs coerces to 0: "2.5" is not
      rounded and not truncated. */
  lemma ToIntRejectsForeignText(s: string, k: int)
    requires 0 <= k < |s|
    requires !IntLiteral.IsSpace(s[k]) && !IntLiteral.IsDigit(s[k])
    requires s[k] != '_' && !IntLiteral.IsSign(s[k])
    ensures ToInt(JStr(s)) == 0
  {
    IntLiteral.ForeignCharRejected(s, k);
  }

  /** A string without any decimal digit coerces to 0. */
  lemma ToIntRejectsDigitlessText(s: string)
    requires forall k | 0 <= k < |s| :: !IntLiteral.IsDigit(s[k])
    ensures ToInt(JStr(s)) == 0
  {
    IntLiteral.NoDigitRejected(s);
  }

  // ---------------------------------------------------------------------------
  // Normalisation properties

  /** Normalising in the loader (gate.py:8) and again in the evaluator
      (gate.py:24-25) gives the same result as the evaluator's check alone:
      the gate judges a parsed value exactly as `security_gate` judges it
      when handed that value directly, as the tests do. */
  lemma EvaluatorNormalisationAfterLoader(read: ReadOutcome)
    ensures read.Parsed? ==> SecurityGate(JObj(LoadScanResult(read))) == SecurityGate(read.value)
    ensures !read.Parsed? ==> SecurityGate(JObj(LoadScanResult(read))) == SecurityGate(JNull)
  {
  }

  /** Whenever the loader produced no report (missing file, malformed JSON,
      or a value that is not an object), the gate allows with zero counts. */
  lemma NoReportAllows(read: ReadOutcome)
    requires !read.Parsed? || !read.value.JObj?
    ensures SecurityGate(JObj(LoadScanResult(read))) == GateResult(Allow, Counts(0, 0, 0))
  {
  }

  // ---------------------------------------------------------------------------
  // Output: decision record and exit status

  /** The decision label written to the record and compared in `main`. */
  function Label(d: Decision): (s: string)
    ensures s == "BLOCK" <==> d == Block
    ensures s == "WARN" <==> d == Warn
    ensures s == "ALLOW" <==> d == Allow
  {
    match d
    case Block => "BLOCK"
    case Warn => "WARN"
    case Allow => "ALLOW"
  }

  /** A downstream reader's view of a label: the decision it names, if any. */
  function ParseLabel(s: string): (r: Option<Decision>)
    ensures r.Some? ==> Label(r.value) == s
  {
    if s == "BLOCK" then Some(Block)
    else if s == "WARN" then Some(Warn)
    else if s == "ALLOW" then Some(Allow)
    else None
  }

  lemma LabelRoundTrip(d: Decision)
    ensures ParseLabel(Label(d)) == Some(d)
  {
  }

  /** The payload of `write_decision_file`; `timestamp` stands for
      `datetime.utcnow().isoformat()`. */
  function DecisionRecord(r: GateResult, timestamp: string): (p: JValue)
    ensures p.JObj? && p.fields.Keys == {"decision", "counts", "generated_at_utc"}
    ensures p.fields["counts"].JObj?
    ensures p.fields["counts"].fields.Keys == {CriticalKey, HighKey, MediumKey}
    ensures p.fields["generated_at_utc"] == JStr(timestamp + "Z")
  {
    JObj(map[
      "decision" := JStr(Label(r.decision)),
      "counts" := JObj(map[
        CriticalKey := JInt(r.counts.critical),
        HighKey := JInt(r.counts.high),
        MediumKey := JInt(r.counts.medium)]),
      "generated_at_utc" := JStr(timestamp + "Z")])
  }

  /** Re-reading the written record gives back the decision: its label parses
      to it, and evaluating its counts object again reproduces the whole result. */
  lemma DecisionRecordRereads(report: JValue, timestamp: string)
    ensures var r := SecurityGate(report);
            var p := DecisionRecord(r, timestamp);
            && p.fields["decision"].JStr?
            && ParseLabel(p.fields["decision"].s) == Some(r.decision)
            && SecurityGate(p.fields["counts"]) == r
  {
    var r := SecurityGate(report);
    LabelRoundTrip(r.decision);
    var counts := DecisionRecord(r, timestamp).fields["counts"];
    assert ExtractCounts(counts) == r.counts;
  }

  /** `main`'s exit status: 1 for BLOCK, 0 for WARN and ALLOW. */
  function ExitCode(d: Decision): (code: int)
    ensures code == 1 <==> d == Block
    ensures code == 0 <==> d != Block
  {
    if d == Block then 1 else 0
  }

  /** The symbol that opens the printed line. */
  function Icon(d: Decision): (s: string) {
    match d
    case Block => "\U{274C}"
    case Warn => "\U{26A0}\U{FE0F}"
    case Allow => "\U{2705}"
  }

  /** What the printed line adds after the label: BLOCK-ED, WARN-ING, ALLOW-ED. */
  function Detail(d: Decision): (s: string) {
    match d
    case Block => "ED (critical issues found)"
    case Warn => "ING (review required)"
    case Allow => "ED"
  }

  /** `line` opens with the symbol of `d` and announces "Security Gate: "
      followed by the label of `d`. */
  ghost predicate Announces(line: string, d: Decision) {
    exists detail :: line == Icon(d) + " Security Gate: " + Label(d) + detail
  }

  /** The line `main` prints for each decision:
      "\U{274C} Security Gate: BLOCKED (critical issues found)",
      "\U{26A0}\U{FE0F} Security Gate: WARNING (review required)" and
      "\U{2705} Security Gate: ALLOWED". */
  function Message(d: Decision): (s: string)
    ensures Announces(s, d)
  {
    Icon(d) + " Security Gate: " + Label(d) + Detail(d)
  }

  /** WARN and ALLOW share an exit status, yet every decision prints its own line. */
  lemma OutcomeDistinguishesDecisions(d: Decision, d': Decision)
    requires d != d'
    ensures Message(d) != Message(d')
    ensures ExitCode(d) == ExitCode(d') <==> d != Block && d' != Block
  {
    assert |Message(Block)| == 48 && |Message(Warn)| == 43 && |Message(Allow)| == 24;
  }

  /** `main`: load, evaluate, build the record, choose message and exit status. */
  function RunGate(read: ReadOutcome, timestamp: string): (run: RunResult)
    ensures run.exitCode == 1 <==> ExtractCounts(JObj(LoadScanResult(read))).critical > 0
    ensures run.exitCode == 0 <==> ExtractCounts(JObj(LoadScanResult(read))).critical <= 0
    ensures run.record.JObj? && "generated_at_utc" in run.record.fields
    ensures run.record.fields["generated_at_utc"] == JStr(timestamp + "Z")
    ensures "decision" in run.record.fields && run.record.fields["decision"].JStr?
    ensures var d := ParseLabel(run.record.fields["decision"].s);
            d.Some? && run.exitCode == ExitCode(d.value) && Announces(run.message, d.value)
    ensures ParseLabel(run.record.fields["decision"].s) == Some(SecurityGate(JObj(LoadScanResult(read))).decision)
    ensures "counts" in run.record.fields
    ensures SecurityGate(run.record.fields["counts"]) == SecurityGate(JObj(LoadScanResult(read)))
  {
    var r := SecurityGate(JObj(LoadScanResult(read)));
    LabelRoundTrip(r.decision);
    DecisionRecordRereads(JObj(LoadScanResult(read)), timestamp);
    RunResult(ExitCode(r.decision), Message(r.decision), DecisionRecord(r, timestamp))
  }
}

=== FILE: gate_scenarios.dfy ===
/** The scenarios of test_gate.py, and a few further ones for `int(s)`,
    stated as lemmas about the model. */
module GateScenarios {
  import opened Wrappers
  import opened Json
  import opened Gate
  import IntLiteral

  function ScanReport(critical: JValue, high: JValue, medium: JValue): (report: JValue) {
    JObj(map[CriticalKey := critical, HighKey := high, MediumKey := medium])
  }

  /** A report with all three keys is judged on the three coerced values. */
  lemma ScanReportGate(critical: JValue, high: JValue, medium: JValue)
    ensures var c := Counts(ToInt(critical), ToInt(high), ToInt(medium));
            SecurityGate(ScanReport(critical, high, medium)) == GateResult(Decide(c), c)
  {
  }

  /** test_block_when_critical_found: one critical finding blocks, exit status 1. */
  lemma BlockWhenCriticalFound()
    ensures SecurityGate(ScanReport(JInt(1), JInt(0), JInt(2))) == GateResult(Block, Counts(1, 0, 2))
    ensures RunGate(Parsed(ScanReport(JInt(1), JInt(0), JInt(2))), "").exitCode == 1
  {
  }

  /** test_warn_when_high_found. */
  lemma WarnWhenHighFound()
    ensures SecurityGate(ScanReport(JInt(0), JInt(1), JInt(2))) == GateResult(Warn, Counts(0, 1, 2))
    ensures RunGate(Parsed(ScanReport(JInt(0), JInt(1), JInt(2))), "").exitCode == 0
  {
  }

  /** test_allow_when_only_medium_found: 3 medium findings, and 4, are below the threshold. */
  lemma MediumBelowThreshold()
    ensures SecurityGate(ScanReport(JInt(0), JInt(0), JInt(3))) == GateResult(Allow, Counts(0, 0, 3))
    ensures SecurityGate(ScanReport(JInt(0), JInt(0), JInt(4))).decision == Allow
  {
  }

  /** test_warn_when_5_medium_found: 5 medium findings are at the threshold. */
  lemma MediumAtThreshold()
    ensures SecurityGate(ScanReport(JInt(0), JInt(0), JInt(5))) == GateResult(Warn, Counts(0, 0, 5))
  {
  }

  /** test_allow_when_report_is_empty and test_edge_case_non_dict_report. */
  lemma EmptyOrMissingReportAllows()
    ensures SecurityGate(JObj(map[])) == GateResult(Allow, Counts(0, 0, 0))
    ensures SecurityGate(JNull) == GateResult(Allow, Counts(0, 0, 0))
    ensures SecurityGate(JObj(LoadScanResult(FileNotFound))) == GateResult(Allow, Counts(0, 0, 0))
    ensures RunGate(FileNotFound, "").exitCode == 0
  {
  }

  /** test_warn_when_high_is_string_number: "1" coerces to 1. */
  lemma WarnWhenHighIsStringNumber()
    ensures SecurityGate(ScanReport(JInt(0), JStr("1"), JInt(0))) == GateResult(Warn, Counts(0, 1, 0))
  {
    ScanReportGate(JInt(0), JStr("1"), JInt(0));
    assert ToInt(JStr("1")) == 1 by {
      IntLiteral.ParseOneDigit('1');
    }
  }

  /** test_to_int_converts_string_number and test_to_int_returns_zero_for_none. */
  lemma ToIntOfNumberTextAndNone()
    ensures ToInt(JStr("1")) == 1
    ensures ToInt(JNull) == 0
  {
    assert ToInt(JStr("1")) == 1 by {
      IntLiteral.ParseOneDigit('1');
    }
  }

  /** test_to_int_converts_float_string: "2.5" is neither rounded nor truncated. */
  lemma ToIntOfFractionText()
    ensures ToInt(JStr("2.5")) == 0
  {
    var s := "2.5";
    assert s[1] == '.';
    ToIntRejectsForeignText(s, 1);
  }

  /** test_to_int_returns_zero_for_text. */
  lemma ToIntOfWordText()
    ensures ToInt(JStr("abc")) == 0
  {
    var s := "abc";
    assert s[0] == 'a';
    ToIntRejectsForeignText(s, 0);
  }

  /** A negative count is kept as it is and does not block. */
  lemma NegativeCriticalDoesNotBlock()
    ensures SecurityGate(ScanReport(JStr("-3"), JInt(0), JInt(0))) == GateResult(Allow, Counts(-3, 0, 0))
  {
    var minusThree := JStr("-3");
    assert ToInt(minusThree) == -3 by {
      assert IntLiteral.ParseInt("-3") == Some(-3) by {
        IntLiteral.ParseNegatedOneDigit('3');
        assert "-" + ['3'] == "-3";
      }
    }
    ScanReportGate(minusThree, JInt(0), JInt(0));
  }

  /** int() strips surrounding whitespace. */
  lemma IntTextPadded()
    ensures IntLiteral.ParseInt(" 7\n") == Some(7)
  {
    var a := " 7\n";
    assert IntLiteral.Trim(a) == "7" by {
      assert IntLiteral.IsLiteralAt(a, 1, 2) by {
        assert a[..1] == " " && a[2..] == "\n" && a[1..2] == "7";
      }
      IntLiteral.TrimFindsLiteral(a, 1, 2);
    }
    assert IntLiteral.Trim("7") == "7" by { IntLiteral.TrimUnpadded("7"); }
    assert IntLiteral.ParseInt("7") == Some(7) by {
      IntLiteral.ParseOneDigit('7');
    }
  }

  /** int() accepts a leading plus sign. */
  lemma IntTextPlusSign()
    ensures IntLiteral.ParseInt("+5") == Some(5)
  {
    var b := "+5";
    assert IntLiteral.IsSignedBody(b) && IntLiteral.SignedValue(b) == 5 by {
      IntLiteral.OneDigitBody('5');
      assert b[1..] == ['5'];
    }
    IntLiteral.ParseUnpaddedLiteral(b);
  }

  /** int() accepts a single underscore between digits. */
  lemma IntTextUnderscore()
    ensures IntLiteral.ParseInt("1_0") == Some(10)
  {
    var c := "1_0";
    assert IntLiteral.Trim(c) == c by { IntLiteral.TrimUnpadded(c); }
    assert IntLiteral.IsSignedBody(c) && IntLiteral.SignedValue(c) == 10 by {
      assert IntLiteral.IsDigitBody(c);
      var one := "1";
      assert IntLiteral.Digits(c) == "10" by {
        assert one[..0] == [];
        assert IntLiteral.Digits(one) == one;
        assert c[..2][..1] == one;
        assert IntLiteral.Digits(c[..2]) == one;
      }
      assert IntLiteral.DigitsValue("10") == 10 by {
        var ten := "10";
        assert ten[..1] == one;
        assert IntLiteral.DigitsValue(one) == 1;
      }
    }
  }

  /** int() rejects a doubled underscore. */
  lemma IntTextDoubleUnderscore()
    ensures IntLiteral.ParseInt("1__0") == None
  {
    var a := "1__0";
    assert IntLiteral.Trim(a) == a by { IntLiteral.TrimUnpadded(a); }
    assert !IntLiteral.IsSignedBody(a) by {
      assert !IntLiteral.DigitAfterUnderscore(a, 1);
      assert !IntLiteral.IsSign(a[0]);
    }
  }

  /** int() rejects a leading underscore. */
  lemma IntTextLeadingUnderscore()
    ensures IntLiteral.ParseInt("_1") == None
  {
    var b := "_1";
    assert IntLiteral.Trim(b) == b by { IntLiteral.TrimUnpadded(b); }
    assert !IntLiteral.IsSignedBody(b) by {
      assert !IntLiteral.IsDigit(b[0]) && !IntLiteral.IsSign(b[0]);
    }
  }

  /** int() rejects whitespace between the sign and the digits. */
  lemma IntTextSpaceAfterSign()
    ensures IntLiteral.ParseInt("- 5") == None
  {
    var c := "- 5";
    assert IntLiteral.Trim(c) == c by { IntLiteral.TrimUnpadded(c); }
    assert !IntLiteral.IsSignedBody(c) by {
      assert !IntLiteral.IsDigit(c[0]);
      assert c[1..][0] == ' ';
    }
  }

  /** int() strips only ASCII '\t'..'\r' and ' ' among the ASCII characters: the
      file separator U+001C, which `str.isspace` accepts, makes "\x1c5" fail. */
  lemma IntTextFileSeparator()
    ensures IntLiteral.ParseInt("\U{1C}5") == None
    ensures ToInt(JStr("\U{1C}5")) == 0
  {
    var d := "\U{1C}5";
    assert !IntLiteral.IsSpace(d[0]) && !IntLiteral.IsDigit(d[0]);
    IntLiteral.ForeignCharRejected(d, 0);
  }
}

=== FILE: int_literal.dfy ===
/** Python's `int(s)` on a `str` in base 10, the conversion `_to_int` relies on.

    A string converts when it has the shape
        whitespace* [ '+' | '-' ] digit ( ['_'] digit )* whitespace*
    and every other string raises ValueError, which the model reports as None.
    Leading zeros are accepted ("007" is 7), underscores may only stand
    between two digits ("1_000" is 1000, "1__0" and "_1" are rejected), and no
    whitespace may follow the sign. */
module IntLiteral {
  import opened Wrappers

  /** The whitespace `int` strips from both ends: the ASCII characters
      '\t' '\n' '\v' '\f' '\r' and ' ', and the non-ASCII characters
      `str.isspace` accepts. The ASCII separators U+001C to U+001F count as
      whitespace for `str.isspace` but not for `int`, so "\x1c5" does not convert. */
  predicate IsSpace(c: char) {
    || ('\t' <= c <= '\r')
    || c == ' '
    || c == '\U{85}' || c == '\U{A0}' || c == '\U{1680}'
    || ('\U{2000}' <= c <= '\U{200A}')
    || c == '\U{2028}' || c == '\U{2029}' || c == '\U{202F}'
    || c == '\U{205F}' || c == '\U{3000}'
  }

  predicate IsDigit(c: char) {
    '0' <= c <= '9'
  }

  predicate IsSign(c: char) {
    c == '+' || c == '-'
  }

  function DigitValue(c: char): (d: nat)
    requires IsDigit(c)
    ensures d < 10
  {
    c as int - '0' as int
  }

  function DigitChar(d: nat): (c: char)
    requires d < 10
    ensures IsDigit(c) && DigitValue(c) == d
  {
    ('0' as int + d) as char
  }

  predicate AllSpace(s: string) {
    forall i | 0 <= i < |s| :: IsSpace(s[i])
  }

  predicate AllDigits(s: string) {
    forall i | 0 <= i < |s| :: IsDigit(s[i])
  }

  /** The digits of an integer literal, most significant first, with single
      underscores allowed between two digits. */
  predicate IsDigitBody(b: string) {
    && |b| > 0
    && IsDigit(b[0])
    && IsDigit(b[|b| - 1])
    && AllDigitsOrUnderscores(b)
    && (forall i | 0 <= i < |b| - 1 :: DigitAfterUnderscore(b, i))
  }

  /** An underscore at position i of `b` is followed by a digit. */
  predicate DigitAfterUnderscore(b: string, i: int)
    requires 0 <= i < |b| - 1
  {
    b[i] == '_' ==> IsDigit(b[i + 1])
  }

  /** An optional sign followed by a digit body. */
  predicate IsSignedBody(t: string) {
    || IsDigitBody(t)
    || (|t| > 0 && IsSign(t[0]) && IsDigitBody(t[1..]))
  }

  /** `s` holds a literal between positions i and j, with only whitespace around it. */
  predicate IsLiteralAt(s: string, i: int, j: int) {
    && 0 <= i <= j <= |s|
    && AllSpace(s[..i])
    && AllSpace(s[j..])
    && IsSignedBody(s[i..j])
  }

  predicate AllDigitsOrUnderscores(b: string) {
    forall i | 0 <= i < |b| :: IsDigit(b[i]) || b[i] == '_'
  }

  /** `b` with every underscore removed. */
  function Digits(b: string): (d: string)
    requires AllDigitsOrUnderscores(b)
    ensures |d| <= |b| && AllDigits(d)
  {
    if |b| == 0 then []
    else Digits(b[..|b| - 1]) + (if b[|b| - 1] == '_' then [] else [b[|b| - 1]])
  }

  /** The decimal value of a digit string, most significant digit first. */
  function DigitsValue(d: string): (n: nat)
    requires AllDigits(d)
  {
    if |d| == 0 then 0
    else 10 * DigitsValue(d[..|d| - 1]) + DigitValue(d[|d| - 1])
  }

  function BodyValue(b: string): (n: nat)
    requires IsDigitBody(b)
  {
    DigitsValue(Digits(b))
  }

  function SignedValue(t: string): (n: int)
    requires IsSignedBody(t)
  {
    if IsDigitBody(t) then BodyValue(t) as int
    else if t[0] == '-' then -(BodyValue(t[1..]) as int)
    else BodyValue(t[1..])
  }

  /** `s` without its leading whitespace. */
  function TrimStart(s: string): (t: string)
  {
    if |s| > 0 && IsSpace(s[0]) then TrimStart(s[1..]) else s
  }

  /** `s` without its trailing whitespace. */
  function TrimEnd(s: string): (t: string)
  {
    if |s| > 0 && IsSpace(s[|s| - 1]) then TrimEnd(s[..|s| - 1]) else s
  }

  /** `s` without whitespace at either end (TrimBounds locates it as a slice of `s`). */
  function Trim(s: string): (t: string)
  {
    TrimEnd(TrimStart(s))
  }

  /** int(s) in base 10: Some(value) when it converts, None where Python raises
      ValueError. It converts exactly the strings that hold a literal padded
      with whitespace, and its value is that literal's value. */
  function ParseInt(s: string): (r: Option<int>)
    ensures r.Some? <==> exists i, j :: IsLiteralAt(s, i, j)
    ensures forall i, j :: IsLiteralAt(s, i, j) ==> r == Some(SignedValue(s[i..j]))
  {
    TrimFindsExactlyLiterals(s);
    var t := Trim(s);
    if IsSignedBody(t) then Some(SignedValue(t)) else None
  }

  /** str(n): the decimal text of a natural number. */
  function ShowNat(n: nat): (s: string)
    ensures |s| > 0 && AllDigits(s)
  {
    if n < 10 then [DigitChar(n)] else ShowNat(n / 10) + [DigitChar(n % 10)]
  }

  /** str(n): the decimal text of an integer, with '-' before negative ones. */
  function Show(n: int): (s: string)
  {
    if n < 0 then "-" + ShowNat(-n) else ShowNat(n)
  }

  // ---------------------------------------------------------------------------
  // Trimming lemmas

  /** TrimStart drops a run of whitespace and keeps the rest. */
  lemma {:induction false} TrimStartSuffix(s: string)
    ensures var t := TrimStart(s);
            && |t| <= |s| && t == s[|s| - |t|..]
            && AllSpace(s[..|s| - |t|])
            && (|t| > 0 ==> !IsSpace(t[0]))
    decreases |s|
  {
    if |s| > 0 && IsSpace(s[0]) {
      TrimStartSuffix(s[1..]);
      var t := TrimStart(s);
      var k := |s| - |t|;
      assert s[1..][k - 1..] == s[k..];
      forall m | 0 <= m < k
        ensures IsSpace(s[..k][m])
      {
        if m > 0 {
          assert s[..k][m] == s[1..][..k - 1][m - 1];
        }
      }
    }
  }

  /** TrimEnd drops a run of whitespace and keeps the rest. */
  lemma {:induction false} TrimEndPrefix(s: string)
    ensures var t := TrimEnd(s);
            && |t| <= |s| && t == s[..|t|]
            && AllSpace(s[|t|..])
            && (|t| > 0 ==> !IsSpace(t[|t| - 1]))
    decreases |s|
  {
    if |s| > 0 && IsSpace(s[|s| - 1]) {
      var s' := s[..|s| - 1];
      TrimEndPrefix(s');
      var t := TrimEnd(s);
      var k := |t|;
      assert s'[..k] == s[..k];
      forall m | 0 <= m < |s| - k
        ensures IsSpace(s[k..][m])
      {
        if m < |s| - 1 - k {
          assert s[k..][m] == s'[k..][m];
        }
      }
    }
  }

  /** Trimming leaves exactly the slice between the whitespace runs at both ends. */
  lemma TrimBounds(s: string) returns (i: int, j: int)
    ensures 0 <= i <= j <= |s|
    ensures Trim(s) == s[i..j]
    ensures AllSpace(s[..i]) && AllSpace(s[j..])
    ensures forall m | 0 <= m < |s| && !(i <= m < j) :: IsSpace(s[m])
    ensures i < j ==> !IsSpace(s[i]) && !IsSpace(s[j - 1])
  {
    var u := TrimStart(s);
    TrimStartSuffix(s);
    i := |s| - |u|;
    var t := TrimEnd(u);
    TrimEndPrefix(u);
    j := i + |t|;
    assert t == s[i..j] by {
      assert u == s[i..];
      assert t == u[..|t|];
    }
    assert AllSpace(s[j..]) by {
      assert s[j..] == u[|t|..];
    }
    if i < j {
      assert s[i] == u[0] && s[j - 1] == t[|t| - 1];
    }
    forall m | 0 <= m < |s| && !(i <= m < j)
      ensures IsSpace(s[m])
    {
      if m < i {
        assert s[..i][m] == s[m];
      } else {
        assert s[j..][m - j] == s[m];
      }
    }
  }

  lemma {:induction false} TrimStartAfterSpace(s: string, i: int)
    requires 0 <= i <= |s|
    requires AllSpace(s[..i])
    requires i < |s| ==> !IsSpace(s[i])
    ensures TrimStart(s) == s[i..]
    decreases i
  {
    if i > 0 {
      assert IsSpace(s[..i][0]);
      assert s[1..][..i - 1] == s[1..i];
      TrimStartAfterSpace(s[1..], i - 1);
      assert s[1..][i - 1..] == s[i..];
    }
  }

  lemma {:induction false} TrimEndBeforeSpace(s: string, j: int)
    requires 0 <= j <= |s|
    requires AllSpace(s[j..])
    requires 0 < j ==> !IsSpace(s[j - 1])
    ensures TrimEnd(s) == s[..j]
    decreases |s| - j
  {
    if j < |s| {
      var k := |s| - 1;
      assert IsSpace(s[j..][k - j]);
      assert s[..k][j..] == s[j..k];
      TrimEndBeforeSpace(s[..k], j);
      assert s[..k][..j] == s[..j];
    }
  }

  /** A string with no whitespace at either end is left as it is. */
  lemma TrimUnpadded(s: string)
    requires |s| > 0 ==> !IsSpace(s[0]) && !IsSpace(s[|s| - 1])
    ensures Trim(s) == s
  {
    assert s[..0] == [];
    TrimStartAfterSpace(s, 0);
    assert s[|s|..] == [];
    TrimEndBeforeSpace(s, |s|);
  }

  /** A literal starts with a sign or a digit and ends with a digit. */
  lemma SignedBodyEnds(t: string)
    requires IsSignedBody(t)
    ensures |t| > 0 && !IsSpace(t[0]) && !IsSpace(t[|t| - 1])
  {
    if !IsDigitBody(t) {
      assert t[1..][|t| - 2] == t[|t| - 1];
    }
  }

  /** A literal surrounded by whitespace is exactly what trimming keeps. */
  lemma TrimFindsLiteral(s: string, i: int, j: int)
    requires IsLiteralAt(s, i, j)
    ensures Trim(s) == s[i..j]
  {
    var t := s[i..j];
    assert !IsSpace(s[i]) && !IsSpace(s[j - 1]) by {
      SignedBodyEnds(t);
      assert t[0] == s[i] && t[|t| - 1] == s[j - 1];
    }
    TrimStartAfterSpace(s, i);
    var u := s[i..];
    assert AllSpace(u[j - i..]) by { assert u[j - i..] == s[j..]; }
    assert !IsSpace(u[j - i - 1]) by { assert u[j - i - 1] == s[j - 1]; }
    TrimEndBeforeSpace(u, j - i);
    assert u[..j - i] == t;
  }

  // ---------------------------------------------------------------------------
  // int(s): the strings it accepts

  /** What trimming keeps is a literal exactly when the string holds a
      literal padded with whitespace, and then it keeps that literal. */
  lemma TrimFindsExactlyLiterals(s: string)
    ensures IsSignedBody(Trim(s)) <==> exists i, j :: IsLiteralAt(s, i, j)
    ensures forall i, j :: IsLiteralAt(s, i, j) ==> Trim(s) == s[i..j]
  {
    var i, j := TrimBounds(s);
    if IsSignedBody(Trim(s)) {
      assert IsLiteralAt(s, i, j);
    }
    forall i', j' | IsLiteralAt(s, i', j')
      ensures Trim(s) == s[i'..j']
    {
      TrimFindsLiteral(s, i', j');
    }
  }

  /** A character that is neither whitespace, a digit, an underscore nor a
      sign makes int(s) fail: "2.5", "1e3" and "abc" do not convert. */
  lemma ForeignCharRejected(s: string, k: int)
    requires 0 <= k < |s|
    requires !IsSpace(s[k]) && !IsDigit(s[k]) && s[k] != '_' && !IsSign(s[k])
    ensures ParseInt(s) == None
  {
    var i, j := TrimBounds(s);
    assert i <= k < j;
    var t := s[i..j];
    assert t[k - i] == s[k];
    assert !IsDigitBody(t);
    if k - i > 0 {
      var b := t[1..];
      assert b[k - i - 1] == s[k];
      assert !IsDigitBody(b);
    } else {
      assert !IsSign(t[0]);
    }
    assert !IsSignedBody(t);
  }

  /** A string without a single decimal digit does not convert. */
  lemma NoDigitRejected(s: string)
    requires forall k | 0 <= k < |s| :: !IsDigit(s[k])
    ensures ParseInt(s) == None
  {
    var i, j := TrimBounds(s);
    var t := s[i..j];
    if |t| > 0 {
      assert t[0] == s[i];
    }
    if |t| > 1 {
      assert t[1..][0] == s[i + 1];
    }
  }

  // ---------------------------------------------------------------------------
  // str(n) followed by int: the round trip

  lemma {:induction false} ShowNatHasNoUnderscore(n: nat)
    ensures Digits(ShowNat(n)) == ShowNat(n)
    decreases n
  {
    var s := ShowNat(n);
    if n >= 10 {
      ShowNatHasNoUnderscore(n / 10);
      assert s[..|s| - 1] == ShowNat(n / 10);
    }
  }

  lemma {:induction false} ShowNatValue(n: nat)
    ensures DigitsValue(ShowNat(n)) == n
    decreases n
  {
    var s := ShowNat(n);
    if n >= 10 {
      ShowNatValue(n / 10);
      assert s[..|s| - 1] == ShowNat(n / 10);
    }
  }

  /** A literal with no whitespace around it converts to its value. */
  lemma ParseUnpaddedLiteral(t: string)
    requires IsSignedBody(t)
    ensures ParseInt(t) == Some(SignedValue(t))
  {
    SignedBodyEnds(t);
    TrimUnpadded(t);
  }

  /** An unpadded digit body converts to its value. */
  lemma ParseDigitBody(d: string)
    requires IsDigitBody(d)
    ensures ParseInt(d) == Some(BodyValue(d))
  {
    TrimUnpadded(d);
  }

  /** A minus sign followed by a digit body converts to the negated value. */
  lemma ParseNegatedDigitBody(d: string)
    requires IsDigitBody(d)
    ensures ParseInt("-" + d) == Some(-(BodyValue(d) as int))
  {
    var s := "-" + d;
    assert s[1..] == d && s[|s| - 1] == d[|d| - 1];
    assert !IsDigitBody(s) by { assert s[0] == '-'; }
    TrimUnpadded(s);
  }

  lemma OneDigitBody(c: char)
    requires IsDigit(c)
    ensures IsDigitBody([c]) && BodyValue([c]) == DigitValue(c)
  {
    var d := [c];
    assert d[..0] == [];
    assert Digits(d) == d by {
      assert Digits(d[..0]) == [];
      assert Digits(d) == Digits(d[..0]) + [c];
    }
    assert DigitsValue(d) == DigitValue(c) by {
      assert DigitsValue(d[..0]) == 0;
    }
  }

  /** A single digit converts to its value. */
  lemma ParseOneDigit(c: char)
    requires IsDigit(c)
    ensures ParseInt([c]) == Some(DigitValue(c))
  {
    OneDigitBody(c);
    ParseDigitBody([c]);
  }

  /** A minus sign and a single digit convert to the negated digit value. */
  lemma ParseNegatedOneDigit(c: char)
    requires IsDigit(c)
    ensures ParseInt("-" + [c]) == Some(-(DigitValue(c) as int))
  {
    OneDigitBody(c);
    ParseNegatedDigitBody([c]);
  }

  /** int(str(n)) == n for every integer n. */
  lemma ParseShowRoundTrip(n: int)
    ensures ParseInt(Show(n)) == Some(n)
  {
    var m := if n < 0 then -n else n;
    var d := ShowNat(m);
    assert IsDigitBody(d) && BodyValue(d) == m by {
      ShowNatHasNoUnderscore(m);
      ShowNatValue(m);
    }
    if n < 0 {
      ParseNegatedDigitBody(d);
    } else {
      ParseDigitBody(d);
    }
  }
}

=== FILE: json.dfy ===
/** The values Python's json module produces, restricted to integral numbers:
    null, true/false, integers, strings, arrays and objects (dicts). */
module Json {

  datatype JValue =
    | JNull
    | JBool(b: bool)
    | JInt(n: int)
    | JStr(s: string)
    | JList(items: seq<JValue>)
    | JObj(fields: map<string, JValue>)
}

=== FILE: wrappers.dfy ===
/** Option type used for the fallible steps of the model (parsing a string
    as an integer, reading a decision label back). */
module Wrappers {

  datatype Option<+T> = None | Some(value: T) {

    /** The value in Some, or `default` for None. */
    function GetOr(default: T): (r: T)
      ensures Some? ==> r == value
      ensures None? ==> r == default
    {
      match this
      case Some(v) => v
      case None => default
    }
  }
}
